=== FILE: README.md ===
# static_contact — a Dafny model of the request decision logic

static_contact is a small Rust web service that relays contact-form posts from
static websites to email over SMTP. Each site is an *endpoint* in
`config.toml`, named by an identifier that the form sends along. This project
models what the service decides for one request and proves properties of
that decision:

- **Form validation** (`src/form.rs`):
  - `check_length` collects every length violation of the name, email, phone
    and message fields into one trimmed error text;
  - `check_existence` turns the three sub-results of an email probe (syntax,
    SMTP, miscellaneous) into a pass/fail verdict with a trimmed report.
- **Message composition** (`src/email.rs`, `send_mail` up to the builder):
  - the phone clause and the subject;
  - the recipient, sender and reply-to addresses;
  - the HTML and plain-text alternatives.
- **The `index` route** (`src/main.rs`):
  - endpoint resolution by first match;
  - then the length check, the existence check and delivery;
  - the first failing stage decides the one response: 406, 413, 406 or 500;
  - success answers 200.
- **The configuration records** (`src/config.rs:21-54`).

## Files

- `wrappers.dfy`: `Option` and `Outcome`, the latter standing in for Rust's `Result<(), E>`.
- `text.dfy`: Rust string semantics that the relay relies on.
  - `.len()` is the number of UTF-8 bytes. It is computed with an explicit
    encoder following section 3 of RFC 3629.
  - `trim` strips the Unicode White_Space characters.
  - `replace` agrees with split-then-join.
  - `{}` on an unsigned integer prints it in decimal.
- `configuration.dfy`: `Config`, `ServerConfig`, `EndpointConfig` and `TargetConfig`.
- `form.dfy`: `FormData` and both checks.
  - Violations are structured values (`LengthViolation`, `ExistenceViolation`).
  - Each violation maps to the exact text fragment the source appends.
  - The reported error is that text accumulated and trimmed, as in the source.
- `email.dfy`: `Mailbox`, `Mail` and the templates.
- `handler.dfy`: `Resolve` and the staged pipeline.
  - `Pipeline` threads an optional response through the stages the way `index` threads its `response` variable.
  - It records each check and effect performed as a `Step`.
  - `Index` feeds it the verdicts of the real checks.

The email probe and the SMTP transport are effects. Both become inputs:
- `probe: ProbeResult` is what the probe reports for the submitted address;
- `delivery: Outcome<string>` is what the transport answers.

A stage that `index` skips leaves no `Step`. So "no send happens" is a
statement about the recorded steps.

Two oddities of the source are modelled as written:
- The reply line of both bodies ends in `or {phone}`, and the phone clause
  itself begins with `" or call "`. The text therefore reads `or  or call …`
  when a phone is given. When none is, the plain body ends in `or ` and the
  HTML body in `or </p>`.
- The syntax-error fragment of `check_existence` is appended without a line
  break. A finding that follows it continues on the same line
  (`Form.SyntaxErrorSharesLine`).

Misspellings in the messages ("adress") are kept.

## Model

| member | source | states |
|---|---|---|
| Text.Utf8Encode | src/form.rs:25 | the byte buffer behind a string is between one and four bytes per character, and exactly one per character iff the text is ASCII |
| Text.EncodeChar | src/form.rs:25 | a character takes 1–4 bytes: one byte equal to the code point below 0x80, otherwise a lead byte followed by continuation bytes |
| Text.EncodeCharRoundTrip | src/form.rs:25 | decoding the bytes of a character gives back its code point, so the byte length is that of a faithful encoding |
| Text.ByteLength | src/form.rs:35 | `len()` is between one and four bytes per character, zero exactly for the empty string (so `len() != 0` tests for a given phone), and one per character exactly for ASCII text |
| Text.Utf8EncodeAppend | src/form.rs:25 | encoding and byte length distribute over concatenation |
| Text.Trim | src/form.rs:43 | trimming never lengthens, yields the empty text exactly for all-whitespace input, and otherwise starts and ends with a non-whitespace character |
| Text.TrimIsSlice | src/form.rs:43 | the trimmed text is the slice of the input that follows its leading whitespace and precedes its trailing whitespace, so nothing inside it changes |
| Text.TrimSurrounded | src/form.rs:43 | trimming leaves a text that already starts and ends visibly unchanged, also when one line break follows it |
| Text.Split | src/email.rs:32 | splitting yields at least one piece and no piece contains the separator |
| Text.ReplaceChar | src/email.rs:32 | after replacing `c` by a text without `c` no `c` remains; a text without `c` is unchanged; the length grows by the replacement's extra length per occurrence |
| Text.ReplaceIsSplitJoin | src/email.rs:32 | the character-wise replacement agrees with split-then-join, as Rust's `replace` does |
| Text.SplitJoinRoundTrip | src/email.rs:32 | joining the pieces of a split with the separator gives back the text |
| Text.Decimal | src/form.rs:26 | a count prints as a non-empty string of digits without a leading zero |
| Text.DecimalRoundTrip | src/form.rs:26 | the printed count reads back as the same number |
| Form.AccumulateAppend | src/form.rs:23-39 | each `+=` appends the fragment's text, and its line break if it has one, after the text so far |
| Form.Render | src/form.rs:42-44 | the reported text is empty exactly when the accumulated text is all whitespace, and otherwise starts and ends visibly (that it is a slice of the accumulated text is `Text.TrimIsSlice`) |
| Form.FieldViolations | src/form.rs:25-40 | each field yields at most one violation (too long and too short exclude each other), and a violation is listed iff that field really breaks that bound with that byte length |
| Form.LengthViolations | src/form.rs:25-40 | the violations found are exactly the broken rules, listed in the fixed order name, email, phone, message |
| Form.NoViolationsIffWithinLimits | src/form.rs:25-42 | nothing is found iff name ≤ max_name_length, 3 ≤ email ≤ 254, phone empty or 4 ≤ phone ≤ 32, message ≤ max_message_length (all in bytes) |
| Form.LengthFragment | src/form.rs:26-39 | each violation line starts and ends visibly, and is followed by a line break unless it is the message's |
| Form.LengthReport | src/form.rs:42-44 | violations in field order, accumulated and trimmed, read as their lines joined by single line breaks, non-empty and starting and ending visibly |
| Form.CheckLength | src/form.rs:22-48 | passes iff every length rule holds; otherwise fails with every violation's line, joined by line breaks, non-empty and without trailing whitespace |
| Form.PhoneRules | src/form.rs:33-37 | an empty phone is never flagged, a phone of 1–3 bytes is always flagged too short, a phone of exactly 4 bytes never is |
| Form.LengthLinesDistinct | src/form.rs:26-39 | every line names its field, so lines about different fields differ |
| Form.FirstAndLastLines | src/form.rs:25-40 | in field order, a name violation is reported first and a message violation last |
| Form.NameAndMessageBothReported | src/form.rs:25-40 | a name and a message that are both too long fail the check with two distinct lines, the name's first and the message's last |
| Form.RenderAsLines | src/form.rs:42-44 | clean lines, each but the last followed by a line break, accumulate and trim to those lines joined by line breaks |
| Form.RenderNonEmpty | src/form.rs:103-105 | a report whose first fragment starts visibly trims to a non-empty text that starts and ends visibly |
| Form.AccumulateGlued | src/form.rs:63-70 | a fragment appended without a line break runs straight into the next fragment |
| Form.SyntaxFindings | src/form.rs:57-64 | a finished syntax check contributes an invalid-format finding iff the format is invalid; a failed one contributes its error; at most one finding |
| Form.SmtpFindings | src/form.rs:67-86 | a finished SMTP check contributes full-inbox, undeliverable and disabled findings each iff its flag says so; a failed one contributes nothing |
| Form.MiscFindings | src/form.rs:89-100 | a finished miscellaneous check contributes a disposable finding iff the address is disposable; a failed one contributes nothing; at most one finding |
| Form.SmtpFindingsInOrder | src/form.rs:68-78 | the SMTP findings come in the order full inbox, undeliverable, disabled, each at most once |
| Form.ExistenceViolations | src/form.rs:57-103 | no finding is collected exactly when the probe lets the address through; a finished syntax check never contributes a syntax error; the findings come in the order the source appends them (syntax, full inbox, undeliverable, disabled, disposable), each kind at most once |
| Form.ExistenceFindings | src/form.rs:57-100 | each finding corresponds to one conclusive negative of the probe for the submitted address, and each negative yields its finding |
| Form.ExistenceFragment | src/form.rs:60-92 | every finding's text starts visibly; all but the syntax error end visibly and are followed by a line break |
| Form.ExistenceReport | src/form.rs:102-106 | the accumulated findings trim to a non-empty, visibly bounded report, which is their lines joined by line breaks when no syntax error is among them |
| Form.CheckExistence | src/form.rs:51-109 | fails iff the syntax check errored or found an invalid format, or a finished SMTP check found a full inbox, an undeliverable or a disabled address, or a finished miscellaneous check found a disposable address; the failure text is non-empty and visibly bounded |
| Form.ProbeErrorsIgnored | src/form.rs:79-99 | an errored SMTP or miscellaneous sub-check decides nothing: it acts as a clean result, so a valid syntax with both errored passes |
| Form.SyntaxErrorSharesLine | src/form.rs:63-70 | a syntax error followed by a full-inbox finding reports both texts on one line |
| Email.PhoneClause | src/email.rs:16-19 | the clause is empty iff no phone was given, and otherwise is the fixed call prefix followed by the phone |
| Email.PhoneClauseRoundTrip | src/email.rs:16-19 | the phone number, or its absence, can be read back from the clause |
| Email.Subject | src/email.rs:28 | the subject starts with the bracket and is as long as the site name, the fixed middle and the name together |
| Email.SubjectRoundTrip | src/email.rs:28 | for a site name without `]`, both the site name and the submitter's name read back from the subject |
| Email.HtmlMessage | src/email.rs:32 | the message shown in HTML contains no line break, a message without line breaks is shown unchanged, and each line break costs three more characters |
| Email.HtmlBody | src/email.rs:30-34 | the HTML alternative opens with `<p>` and the name, shows the converted message after the 21 fixed characters and the name, carries the submitter's address as the `mailto` target and again as the link text, and ends with the phone clause followed by `</p>`; its exact length is fixed |
| Email.PlainBody | src/email.rs:35-39 | the plain-text alternative opens with `Message from ` and the name, carries the message verbatim after the 18 fixed characters and the name, then the submitter's address after the fixed reply text, and ends with the phone clause; its exact length is fixed |
| Email.Compose | src/email.rs:16-39 | the recipient is the endpoint's target under its display name, the sender is the endpoint's sender address, replies go to the submitter; for a site name without `]` the subject parses back into the endpoint's name and the submitter's name; the HTML alternative carries the submitter's name, converted message, address and phone clause in their slots (`HtmlLayout`), and the plain alternative carries the name, message, address and phone clause (`PlainLayout`) |
| Email.ComposeReadsOnly | src/email.rs:16-39 | the message depends on the endpoint only through its name, sender address and target |
| Handler.Resolve | src/main.rs:51-53 | resolution answers the first position whose identifier equals the form's, and answers none iff no endpoint carries it |
| Handler.ResolveIsFirstMatch | src/main.rs:51-53 | resolution answers `i` iff `i` is the first match |
| Handler.ResolveIgnoresLater | src/main.rs:51-53 | endpoints listed after a match never change the answer |
| Handler.ResolveUnique | src/main.rs:51-53 | with unique identifiers the endpoint carrying the identifier is the one resolved |
| Handler.UnknownEndpoint | src/main.rs:55-57 | an unknown identifier answers 406 with a text that names the identifier |
| Handler.LengthRejected | src/main.rs:64 | a failed length check answers 413 with a text ending in the check's report |
| Handler.ExistenceRejected | src/main.rs:74 | a failed existence check answers 406 with a text ending in the check's report |
| Handler.Delivered | src/main.rs:80-91 | a delivered mail answers 200 with the thank-you text; a failed delivery answers 500 with a text ending in the transport's error |
| Handler.LengthStage | src/main.rs:60-67 | once a response is set nothing changes; otherwise the length check is recorded as one more step and a response is set exactly when the check fails: 413, ending in the report |
| Handler.ExistenceStage | src/main.rs:70-77 | once a response is set nothing changes; otherwise the probe of the submitted address from the fixed sender is recorded as one more step and a response is set exactly when the check fails: 406, ending in the report |
| Handler.SendStage | src/main.rs:79-92 | once a response is set nothing changes; otherwise the send to the given server is recorded as one more step, and the response is 200 or 500 by the transport's answer; afterwards a response always exists |
| Handler.Pipeline | src/main.rs:46-93 | every request ends with one response whose status is 200, 406, 413 or 500, so the final unwrap cannot fail |
| Handler.PipelineDecisions | src/main.rs:55-93 | the decision table: unknown endpoint 406 with no step; length failure 413 after the length check alone; probe failure 406 after the probe; otherwise the send, answered 200 or 500 |
| Handler.PipelineSendsIffPassed | src/main.rs:79-91 | the mail is sent iff an endpoint was found and both checks passed, and never twice |
| Handler.PipelineIgnoresServer | src/main.rs:79-80 | another server changes nothing but the server the mail is handed to |
| Handler.VerdictsFor | src/main.rs:61-71 | the length verdict passes iff every length rule holds, the existence verdict iff the probe lets the address through |
| Handler.Resolved | src/main.rs:51-80 | verdicts exist iff the identifier resolves, and both pass iff the request is admitted |
| Handler.Index | src/main.rs:45-94 | the route always answers with status 200, 406, 413 or 500 |
| Handler.IndexDecisions | src/main.rs:55-93 | unknown identifier: 406 with no check; broken length rule: 413 after the length check alone; probe negative: 406 after the probe, nothing sent; admitted: the composed mail is sent and the transport's answer gives 200 or 500 |
| Handler.SendIffAdmitted | src/main.rs:79-91 | `send_mail` is invoked iff resolution, the length check and the existence check all passed, and at most once |
| Handler.MailIgnoresServer | src/main.rs:80 | the SMTP server settings change neither the response nor the mail sent, only where it is handed |

## Left out

- `Config::new` and `Config::path` (`src/config.rs:62-110`): reading and parsing `config.toml`, inspecting file permissions and exiting the process. This is file I/O; only the record shapes are modelled.
- `main` (`src/main.rs:98-148`): the HTTP server, worker threads, the CORS allow-list, the JSON extractor's error handler, which answers 409 to any body it cannot extract (too large or malformed), and logging. This is framework plumbing.
- The email probe `email_exists` (`src/form.rs:54`) is a network call. Its three-part result is the `probe` input. The recorded step names the address probed and the fixed sender. The test for "Skipped" in an error's debug text (`src/form.rs:80`, `src/form.rs:95`) only chooses a log line, so it is not modelled.
- The SMTP transport (`src/email.rs:43-56`): client construction, HELO name, credentials, connection reuse and `send`. This is library and network code. Its answer is the `delivery` input, and a failed `unwrap` on the client is not modelled.
- The `expect` on the email builder (`src/email.rs:40-41`): address parsing and MIME encoding are done by a library. `Email.Compose` always yields a `Mail` and never panics.
- async/await and every `println!`/`eprintln!`: concurrency and logging. They do not affect the verdicts.
- The `&mut self` receivers of both checks: the model's checks are functions of the form that return only a verdict. No field can change by construction, so no separate lemma states it.
- The unused `_endpoint_config` parameter of `check_existence`: `Form.CheckExistence` does not take it.
- Response headers and content types: an actix `HttpResponse` is reduced to its status and body.
- Strings: Rust strings are UTF-8 buffers, while the model uses Dafny strings of Unicode scalar values. Rust's `len()` is `Text.ByteLength`, an explicit UTF-8 byte count. The `usize` fields become `nat`; they are only compared, so no wrap-around can arise.
- Form.CheckExistence: the exact failure text is stated only when the syntax sub-check finished. When it errored, the contract states only that the text is non-empty and visibly bounded. `Form.SyntaxErrorSharesLine` shows the glued text for one such case.
- Email.Subject: its contract fixes the leading bracket and the length. The full text is pinned down by `Email.SubjectRoundTrip`, which requires a site name without `]`.

=== FILE: configuration.dfy ===
/**
 * The deserialised `config.toml`: one SMTP server shared by every site and an
 * ordered list of endpoints, one per site that may post contact forms.
 * Rust's `usize` fields become `nat`; the relay only compares them, so no
 * wrap-around can arise.
 */
module Configuration {

  /** Where the relayed message goes: an address and its display name. */
  datatype TargetConfig = TargetConfig(email: string, emailName: string)

  /** One registered site. */
  datatype EndpointConfig = EndpointConfig(
    identifier: string,
    name: string,
    domain: string,
    fromEmail: string,
    maxMessageLength: nat,
    maxNameLength: nat,
    target: TargetConfig
  )

  /** Listening address, payload cap and SMTP credentials. */
  datatype ServerConfig = ServerConfig(
    ip: string,
    port: nat,
    maxPayload: nat,
    smtpServer: string,
    smtpUser: string,
    smtpPassword: string
  )

  datatype Config = Config(server: ServerConfig, endpoints: seq<EndpointConfig>)
}

=== FILE: email.dfy ===
/**
 * The message `send_mail` builds before handing it to the SMTP transport:
 * addressing, subject, and an HTML and a plain-text alternative filled from
 * string templates. Only the submitted form and the endpoint's settings go
 * into it; the server section of the configuration never does.
 */
module Email {
  import opened Wrappers
  import opened Text
  import opened Configuration
  import opened Form

  /** An address with an optional display name. */
  datatype Mailbox = Mailbox(address: string, displayName: Option<string>)

  /** The composed message with its two alternatives. */
  datatype Mail = Mail(
    to: Mailbox,
    from: Mailbox,
    replyTo: Mailbox,
    subject: string,
    html: string,
    plain: string
  )

  // ---------------------------------------------------------------------
  // The phone clause
  // ---------------------------------------------------------------------

  const CallPrefix: string := " or call "

  /** The invitation to call, present only when the submitter gave a phone number. */
  function PhoneClause(phone: string): (c: string)
    ensures c == [] <==> phone == []
    ensures phone != [] ==>
              |c| == |CallPrefix| + |phone| && c[..|CallPrefix|] == CallPrefix && c[|CallPrefix|..] == phone
  {
    if phone == [] then "" else CallPrefix + phone
  }

  /** Reads the phone number back out of a phone clause. */
  function PhoneFromClause(c: string): string {
    if |c| >= |CallPrefix| && c[..|CallPrefix|] == CallPrefix then c[|CallPrefix|..] else c
  }

  /** The clause loses nothing: the phone number (or its absence) can be read back. */
  lemma PhoneClauseRoundTrip(phone: string)
    ensures PhoneFromClause(PhoneClause(phone)) == phone
  {
    if phone != [] {
      var c := PhoneClause(phone);
      assert c[..|CallPrefix|] == CallPrefix;
    }
  }

  // ---------------------------------------------------------------------
  // The subject
  // ---------------------------------------------------------------------

  const SubjectMiddle: string := "] Contact from "

  /** The subject names the site in brackets and then the submitter. */
  function Subject(siteName: string, name: string): (s: string)
    ensures |s| == 1 + |siteName| + |SubjectMiddle| + |name|
    ensures s[0] == '['
  {
    "[" + siteName + SubjectMiddle + name
  }

  /** Position of the first `c` in `s`, if any. */
  function IndexOf(s: string, c: char): (r: Option<nat>)
    ensures r.Some? ==> r.value < |s| && s[r.value] == c && c !in s[..r.value]
    ensures r.None? ==> c !in s
  {
    if s == [] then None
    else if s[0] == c then Some(0)
    else
      match IndexOf(s[1..], c)
      case None => None
      case Some(k) =>
        assert s[..k + 1] == [s[0]] + s[1..][..k];
        Some(k + 1)
  }

  /** Splits a subject back into the site name and the submitter's name. */
  function ParseSubject(s: string): Option<(string, string)> {
    if s == [] || s[0] != '[' then None
    else
      match IndexOf(s[1..], ']')
      case None => None
      case Some(k) =>
        var rest := s[k + 1..];
        if |rest| >= |SubjectMiddle| && rest[..|SubjectMiddle|] == SubjectMiddle
        then Some((s[1..k + 1], rest[|SubjectMiddle|..]))
        else None
  }

  /** The first `c` in `a + b` is at `|a|` when `a` has none and `b` starts with `c`. */
  lemma {:induction false} IndexOfAfter(a: string, b: string, c: char)
    requires c !in a && b != [] && b[0] == c
    ensures IndexOf(a + b, c) == Some(|a|)
    decreases |a|
  {
    if a != [] {
      assert (a + b)[1..] == a[1..] + b;
      IndexOfAfter(a[1..], b, c);
    }
  }

  /** A site name without `]` and the submitter's name can both be read back from the subject. */
  lemma SubjectRoundTrip(siteName: string, name: string)
    requires ']' !in siteName
    ensures ParseSubject(Subject(siteName, name)) == Some((siteName, name))
  {
    var s := Subject(siteName, name);
    assert s[1..] == siteName + (SubjectMiddle + name);
    IndexOfAfter(siteName, SubjectMiddle + name, ']');
    var rest := s[|siteName| + 1..];
    assert rest == SubjectMiddle + name;
    assert rest[..|SubjectMiddle|] == SubjectMiddle;
    assert s[1..|siteName| + 1] == siteName;
  }

  // ---------------------------------------------------------------------
  // The HTML alternative
  // ---------------------------------------------------------------------

  /** The message as the HTML alternative shows it: every line break becomes `<br>`. */
  function HtmlMessage(message: string): (m: string)
    ensures '\n' !in m
    ensures '\n' !in message ==> m == message
    ensures |m| == |message| + 3 * Count(message, '\n')
  {
    ReplaceChar(message, '\n', "<br>")
  }

  /** The piece between a known prefix and any suffix can be read back by position. */
  lemma Slot(a: string, x: string, b: string)
    ensures (a + x + b)[|a|..|a| + |x|] == x
  {
    assert a + x + b == a + (x + b);
  }

  const HtmlOpen: string := "<p>"
  const HtmlWrote: string := " wrote:</p><br><i>"
  const HtmlMailto: string := "</i>\n\n<br><br><p>Reply to <a href=\"mailto:"
  const HtmlLinkText: string := "\">"
  const HtmlOr: string := "</a> or "
  const HtmlClose: string := "</p>"

  /**
   * Where each part of the HTML alternative `b` sits: the name after the
   * opening `<p>`, the message `m` after the 21 fixed characters and the name,
   * the submitter's address as the `mailto` target and again as the link
   * text, and the phone clause just before the closing `</p>`.
   */
  predicate HtmlLayout(b: string, name: string, email: string, m: string, clause: string) {
    var k := |name| + 21 + |m| + 42;
    && |b| == k + 2 * |email| + 10 + |clause| + 4
    && b[..3] == "<p>" && b[3..3 + |name|] == name
    && b[|name| + 21..|name| + 21 + |m|] == m
    && b[k..k + |email|] == email
    && b[k + |email| + 2..k + 2 * |email| + 2] == email
    && b[|b| - |clause| - 4..|b| - 4] == clause
    && b[|b| - 4..] == "</p>"
  }

  /**
   * The HTML alternative: the name, the message with line breaks turned into
   * `<br>`, and the reply invitation to the submitter's address with the phone
   * clause, laid out as `HtmlLayout` describes.
   */
  function HtmlBody(name: string, email: string, message: string, clause: string): (b: string)
    ensures HtmlLayout(b, name, email, HtmlMessage(message), clause)
  {
    var m := HtmlMessage(message);
    var p1 := HtmlOpen + name + HtmlWrote + m + HtmlMailto;
    var p2 := p1 + email + HtmlLinkText;
    var p3 := p2 + email + HtmlOr;
    var b := p3 + clause + HtmlClose;
    HtmlSlots(name, email, m, clause, p1, p2, p3, b);
    b
  }

  /** Reads each slot of the HTML alternative back by position. */
  lemma HtmlSlots(name: string, email: string, m: string, clause: string, p1: string, p2: string, p3: string, b: string)
    requires p1 == HtmlOpen + name + HtmlWrote + m + HtmlMailto
    requires p2 == p1 + email + HtmlLinkText && p3 == p2 + email + HtmlOr && b == p3 + clause + HtmlClose
    ensures HtmlLayout(b, name, email, m, clause)
  {
    assert b == p1 + (email + HtmlLinkText + email + HtmlOr + clause + HtmlClose);
    HtmlFront(name, m, p1, b);
    HtmlBack(email, clause, p1, p2, p3, b);
  }

  /** The two address slots, the phone clause and the closing `</p>`, read back after a known prefix. */
  lemma HtmlBack(email: string, clause: string, p1: string, p2: string, p3: string, b: string)
    requires p2 == p1 + email + HtmlLinkText && p3 == p2 + email + HtmlOr && b == p3 + clause + HtmlClose
    ensures |b| == |p1| + 2 * |email| + 10 + |clause| + 4
    ensures b[|p1|..|p1| + |email|] == email
    ensures b[|p1| + |email| + 2..|p1| + 2 * |email| + 2] == email
    ensures b[|b| - |clause| - 4..|b| - 4] == clause
    ensures b[|b| - 4..] == "</p>"
  {
    assert |HtmlLinkText| == 2 && |HtmlOr| == 8 && |HtmlClose| == 4;
    Slot(p1, email, HtmlLinkText);
    assert b[..|p2|] == p2;
    Slot(p2, email, HtmlOr);
    assert b[..|p3|] == p3;
    Slot(p3, clause, HtmlClose);
  }

  /** The opening `<p>`, the name and the message, read back from any text that starts with them. */
  lemma HtmlFront(name: string, m: string, p1: string, b: string)
    requires p1 == HtmlOpen + name + HtmlWrote + m + HtmlMailto
    requires |p1| <= |b| && b[..|p1|] == p1
    ensures |p1| == |name| + 21 + |m| + 42
    ensures b[..3] == "<p>" && b[3..3 + |name|] == name
    ensures b[|name| + 21..|name| + 21 + |m|] == m
  {
    assert |HtmlWrote| == 18 && |HtmlMailto| == 42;
    var q := HtmlOpen + name + HtmlWrote;
    Slot(HtmlOpen, name, HtmlWrote);
    assert p1[..|q|] == q;
    Slot(q, m, HtmlMailto);
  }

  // ---------------------------------------------------------------------
  // The plain-text alternative
  // ---------------------------------------------------------------------

  const PlainOpen: string := "Message from "
  const PlainQuote: string := ":\n\n> "
  const PlainReply: string := "\n\nReply to <"
  const PlainOr: string := "> or "

  /**
   * Where each part of the plain-text alternative `b` sits: the name after
   * `Message from `, the message verbatim after the 18 fixed characters and
   * the name, the submitter's address in the reply invitation, and the phone
   * clause at the end.
   */
  predicate PlainLayout(b: string, name: string, email: string, message: string, clause: string) {
    var k := |name| + 18 + |message| + 12;
    && |b| == k + |email| + 5 + |clause|
    && b[..13] == "Message from " && b[13..13 + |name|] == name
    && b[|name| + 18..|name| + 18 + |message|] == message
    && b[k..k + |email|] == email
    && b[|b| - |clause|..] == clause
  }

  /**
   * The plain-text alternative: the name, the message verbatim, and the reply
   * invitation to the submitter's address with the phone clause, laid out as
   * `PlainLayout` describes.
   */
  function PlainBody(name: string, email: string, message: string, clause: string): (b: string)
    ensures PlainLayout(b, name, email, message, clause)
  {
    var p1 := PlainOpen + name + PlainQuote + message + PlainReply;
    var p2 := p1 + email + PlainOr;
    var b := p2 + clause;
    PlainSlots(name, email, message, clause, p1, p2, b);
    b
  }

  /** Reads each slot of the plain-text alternative back by position. */
  lemma PlainSlots(name: string, email: string, message: string, clause: string, p1: string, p2: string, b: string)
    requires p1 == PlainOpen + name + PlainQuote + message + PlainReply
    requires p2 == p1 + email + PlainOr && b == p2 + clause
    ensures PlainLayout(b, name, email, message, clause)
  {
    assert |PlainOpen| == 13 && |PlainQuote| == 5 && |PlainReply| == 12;
    var q := PlainOpen + name + PlainQuote;
    Slot(PlainOpen, name, PlainQuote);
    assert b[..|q|] == q;
    Slot(q, message, PlainReply);
    assert b[..|p1|] == p1;
    Slot(p1, email, PlainOr);
    assert b[|p2|..] == clause;
  }

  // ---------------------------------------------------------------------
  // Composition
  // ---------------------------------------------------------------------

  /**
   * The message `send_mail` builds: to the endpoint's target under its display
   * name, from the endpoint's sender address, with replies going to the submitter.
   * The subject names the endpoint and the submitter, and both alternatives
   * carry the submitter's name, message, address and phone clause.
   */
  function Compose(d: FormData, e: EndpointConfig): (m: Mail)
    ensures m.to == Mailbox(e.target.email, Some(e.target.emailName))
    ensures m.from == Mailbox(e.fromEmail, None)
    ensures m.replyTo == Mailbox(d.email, None)
    ensures ']' !in e.name ==> ParseSubject(m.subject) == Some((e.name, d.name))
    ensures HtmlLayout(m.html, d.name, d.email, HtmlMessage(d.message), PhoneClause(d.phone))
    ensures PlainLayout(m.plain, d.name, d.email, d.message, PhoneClause(d.phone))
  {
    var clause := PhoneClause(d.phone);
    assert ']' !in e.name ==> ParseSubject(Subject(e.name, d.name)) == Some((e.name, d.name)) by {
      if ']' !in e.name {
        SubjectRoundTrip(e.name, d.name);
      }
    }
    Mail(
      Mailbox(e.target.email, Some(e.target.emailName)),
      Mailbox(e.fromEmail, None),
      Mailbox(d.email, None),
      Subject(e.name, d.name),
      HtmlBody(d.name, d.email, d.message, clause),
      PlainBody(d.name, d.email, d.message, clause))
  }

  /**
   * The composed message reads only the sender's fields and the endpoint's
   * name, sender address and target: the identifier, domain and length
   * limits of the endpoint do not change it.
   */
  lemma ComposeReadsOnly(d: FormData, e: EndpointConfig, e': EndpointConfig)
    requires e.name == e'.name && e.fromEmail == e'.fromEmail && e.target == e'.target
    ensures Compose(d, e) == Compose(d, e')
  {
  }
}

=== FILE: form.dfy ===
/**
 * The submitted form and the two checks run on it: `check_length`, which
 * collects every length violation, and `check_existence`, which reads the
 * verdict of an external email probe. Both build their error text the way the
 * source does: each violated rule appends one fragment, and the accumulated
 * text is trimmed before it is reported.
 */
module Form {
  import opened Wrappers
  import opened Text
  import opened Configuration

  /** The JSON body of a contact-form request. An empty `phone` means none was given. */
  datatype FormData = FormData(
    name: string,
    email: string,
    phone: string,
    message: string,
    identifier: string
  )

  // ---------------------------------------------------------------------
  // The aggregate error text
  // ---------------------------------------------------------------------

  /** One piece the source appends to its error text, and whether a newline follows it. */
  datatype Fragment = Fragment(text: string, newline: bool)

  function Piece(f: Fragment): string {
    f.text + (if f.newline then "\n" else "")
  }

  /** The error text before trimming: the pieces in the order they were appended. */
  function Accumulate(fs: seq<Fragment>): string {
    if fs == [] then "" else Piece(fs[0]) + Accumulate(fs[1..])
  }

  /** Each `+=` appends the fragment's text, and its newline if any, at the end of the text so far. */
  lemma {:induction false} AccumulateAppend(fs: seq<Fragment>, f: Fragment)
    ensures Accumulate(fs + [f]) == Accumulate(fs) + f.text + (if f.newline then "\n" else "")
    decreases |fs|
  {
    if fs == [] {
      assert fs + [f] == [f];
      assert Accumulate([f]) == Piece(f) + Accumulate([]);
    } else {
      assert (fs + [f])[1..] == fs[1..] + [f];
      AccumulateAppend(fs[1..], f);
    }
  }

  /**
   * The reported error text: the accumulated pieces with the surrounding
   * whitespace cut off, so it is empty or starts and ends visibly.
   */
  function Render(fs: seq<Fragment>): (r: string)
    ensures r == [] <==> AllWhitespace(Accumulate(fs))
    ensures r == [] || Clean(r)
  {
    Trim(Accumulate(fs))
  }

  function Texts(fs: seq<Fragment>): seq<string> {
    seq(|fs|, i requires 0 <= i < |fs| => fs[i].text)
  }

  /** A text framed by two fixed, non-empty pieces. */
  function Around(prefix: string, middle: string, suffix: string): (t: string)
    requires prefix != [] && suffix != []
    ensures t != [] && t[0] == prefix[0] && t[|t| - 1] == suffix[|suffix| - 1]
    ensures |t| == |prefix| + |middle| + |suffix| && forall k :: 0 <= k < |prefix| ==> t[k] == prefix[k]
  {
    prefix + middle + suffix
  }

  /** A line that starts and ends with visible text. */
  predicate Clean(t: string) {
    t != [] && !IsWhitespace(t[0]) && !IsWhitespace(t[|t| - 1])
  }

  lemma {:induction false} AccumulateJoin(fs: seq<Fragment>)
    requires |fs| > 0
    requires forall i :: 0 <= i < |fs| - 1 ==> fs[i].newline
    ensures Accumulate(fs) == Join(Texts(fs), "\n") + (if fs[|fs| - 1].newline then "\n" else "")
    decreases |fs|
  {
    if |fs| > 1 {
      AccumulateJoin(fs[1..]);
      assert Texts(fs)[1..] == Texts(fs[1..]);
    }
  }

  lemma {:induction false} JoinEnds(parts: seq<string>, sep: string)
    requires |parts| > 0
    requires forall i :: 0 <= i < |parts| ==> parts[i] != []
    ensures Join(parts, sep) != []
    ensures Join(parts, sep)[0] == parts[0][0]
    ensures Join(parts, sep)[|Join(parts, sep)| - 1] == parts[|parts| - 1][|parts[|parts| - 1]| - 1]
    decreases |parts|
  {
    if |parts| > 1 {
      JoinEnds(parts[1..], sep);
    }
  }

  /**
   * When every fragment is a clean line and every one but the last ends with a
   * newline, the reported text is exactly those lines joined by newlines.
   */
  lemma RenderAsLines(fs: seq<Fragment>)
    requires |fs| > 0
    requires forall i :: 0 <= i < |fs| ==> Clean(fs[i].text)
    requires forall i :: 0 <= i < |fs| - 1 ==> fs[i].newline
    ensures Render(fs) == Join(Texts(fs), "\n")
    ensures Clean(Render(fs))
  {
    var ts := Texts(fs);
    var joined := Join(ts, "\n");
    AccumulateJoin(fs);
    assert forall i :: 0 <= i < |ts| ==> ts[i] != [];
    JoinEnds(ts, "\n");
    assert joined[0] == fs[0].text[0];
    assert joined[|joined| - 1] == fs[|fs| - 1].text[|fs[|fs| - 1].text| - 1];
    TrimSurrounded(joined);
    if fs[|fs| - 1].newline {
      assert Accumulate(fs) == joined + "\n";
    } else {
      assert Accumulate(fs) == joined;
    }
  }

  /** Whatever follows, a first fragment that starts with visible text makes the report non-empty. */
  lemma RenderNonEmpty(fs: seq<Fragment>)
    requires |fs| > 0 && fs[0].text != [] && !IsWhitespace(fs[0].text[0])
    ensures Clean(Render(fs))
  {
    assert Accumulate(fs)[0] == fs[0].text[0];
  }

  // ---------------------------------------------------------------------
  // check_length
  // ---------------------------------------------------------------------

  const MaxEmailLength: nat := 254
  const MinEmailLength: nat := 3
  const MaxPhoneLength: nat := 32
  const MinPhoneLength: nat := 4

  datatype Field = Name | Email | Phone | Message

  /** The order in which the source checks the fields. */
  function Rank(f: Field): nat {
    match f
    case Name => 0
    case Email => 1
    case Phone => 2
    case Message => 3
  }

  function FieldName(f: Field): string {
    match f
    case Name => "name"
    case Email => "email"
    case Phone => "phone"
    case Message => "message"
  }

  function Value(d: FormData, f: Field): string {
    match f
    case Name => d.name
    case Email => d.email
    case Phone => d.phone
    case Message => d.message
  }

  /** A broken length rule: the field, its byte length and the bound it broke. */
  datatype LengthViolation =
    | TooLong(field: Field, length: nat, limit: nat)
    | TooShort(field: Field, length: nat, limit: nat)

  /** The upper bound on a field: per endpoint for name and message, fixed otherwise. */
  function MaxLength(e: EndpointConfig, f: Field): nat {
    match f
    case Name => e.maxNameLength
    case Email => MaxEmailLength
    case Phone => MaxPhoneLength
    case Message => e.maxMessageLength
  }

  /** Whether `v` describes a rule the form really breaks, with the right length and bound. */
  ghost predicate Breaks(d: FormData, e: EndpointConfig, v: LengthViolation) {
    && v.length == ByteLength(Value(d, v.field))
    && match v
       case TooLong(f, n, lim) => lim == MaxLength(e, f) && n > lim
       case TooShort(f, n, lim) =>
         || (f == Email && lim == MinEmailLength && n < lim)
         || (f == Phone && lim == MinPhoneLength && d.phone != "" && n < lim)
  }

  /** The conjunction of all length rules: what `check_length` accepts. */
  ghost predicate WithinLimits(d: FormData, e: EndpointConfig) {
    && ByteLength(d.name) <= e.maxNameLength
    && MinEmailLength <= ByteLength(d.email) <= MaxEmailLength
    && (d.phone == "" || MinPhoneLength <= ByteLength(d.phone) <= MaxPhoneLength)
    && ByteLength(d.message) <= e.maxMessageLength
  }

  /** Violations listed in the order the fields are checked, at most one per field. */
  predicate Ascending(vs: seq<LengthViolation>) {
    forall i, j :: 0 <= i < j < |vs| ==> Rank(vs[i].field) < Rank(vs[j].field)
  }

  lemma AppendAscending(a: seq<LengthViolation>, b: seq<LengthViolation>)
    requires Ascending(a) && Ascending(b)
    requires forall v, w :: v in a && w in b ==> Rank(v.field) < Rank(w.field)
    ensures Ascending(a + b)
  {
    forall i, j | 0 <= i < j < |a + b|
      ensures Rank((a + b)[i].field) < Rank((a + b)[j].field)
    {
      if j < |a| {
        assert (a + b)[i] == a[i] && (a + b)[j] == a[j];
      } else if i >= |a| {
        assert (a + b)[i] == b[i - |a|] && (a + b)[j] == b[j - |a|];
      } else {
        assert (a + b)[i] == a[i] && (a + b)[j] == b[j - |a|];
        assert a[i] in a && b[j - |a|] in b;
      }
    }
  }

  /** What `check_length` finds wrong with one field: at most one violation. */
  function FieldViolations(d: FormData, e: EndpointConfig, f: Field): (vs: seq<LengthViolation>)
    ensures |vs| <= 1
    ensures forall v :: v in vs <==> v.field == f && Breaks(d, e, v)
  {
    var n := ByteLength(Value(d, f));
    match f
    case Name =>
      if n > e.maxNameLength then [TooLong(Name, n, e.maxNameLength)] else []
    case Email =>
      if n > MaxEmailLength then [TooLong(Email, n, MaxEmailLength)]
      else if n < MinEmailLength then [TooShort(Email, n, MinEmailLength)]
      else []
    case Phone =>
      if n > MaxPhoneLength then [TooLong(Phone, n, MaxPhoneLength)]
      else if n != 0 && n < MinPhoneLength then [TooShort(Phone, n, MinPhoneLength)]
      else []
    case Message =>
      if n > e.maxMessageLength then [TooLong(Message, n, e.maxMessageLength)] else []
  }

  /**
   * The violations `check_length` finds: exactly the broken rules, in field
   * order, so at most one per field (too long and too short exclude each other).
   */
  function LengthViolations(d: FormData, e: EndpointConfig): (vs: seq<LengthViolation>)
    ensures forall v :: v in vs <==> Breaks(d, e, v)
    ensures Ascending(vs)
  {
    var name := FieldViolations(d, e, Name);
    var email := FieldViolations(d, e, Email);
    var phone := FieldViolations(d, e, Phone);
    var message := FieldViolations(d, e, Message);
    var vs := name + email + phone + message;
    assert forall v :: v in vs <==> v in name || v in email || v in phone || v in message;
    assert forall v :: v in vs <==> Breaks(d, e, v);
    AppendAscending(name, email);
    AppendAscending(name + email, phone);
    AppendAscending(name + email + phone, message);
    vs
  }

  /** No violation is found exactly when every length rule holds. */
  lemma NoViolationsIffWithinLimits(d: FormData, e: EndpointConfig)
    ensures LengthViolations(d, e) == [] <==> WithinLimits(d, e)
  {
    var name := FieldViolations(d, e, Name);
    var email := FieldViolations(d, e, Email);
    var phone := FieldViolations(d, e, Phone);
    var message := FieldViolations(d, e, Message);
    assert LengthViolations(d, e) == name + email + phone + message;
    assert name == [] <==> ByteLength(d.name) <= e.maxNameLength;
    assert email == [] <==> MinEmailLength <= ByteLength(d.email) <= MaxEmailLength;
    assert phone == [] <==> (d.phone == "" || MinPhoneLength <= ByteLength(d.phone) <= MaxPhoneLength);
    assert message == [] <==> ByteLength(d.message) <= e.maxMessageLength;
  }

  /** The line the source writes for a length violation; only the message line has no newline. */
  function LengthFragment(v: LengthViolation): (f: Fragment)
    ensures Clean(f.text)
    ensures f.newline <==> v.field != Message
  {
    var counts := Decimal(v.length) + " characters (" + Decimal(v.limit);
    var text := match v
      case TooLong(field, _, _) =>
        Around("Field \"" + FieldName(field) + "\" was too long: ", counts, " is maximum)")
      case TooShort(field, _, _) =>
        Around("Field \"" + FieldName(field) + "\" was too short: ", counts, " is minimum)");
    Fragment(text, v.field != Message)
  }

  function LengthFragments(vs: seq<LengthViolation>): seq<Fragment> {
    seq(|vs|, i requires 0 <= i < |vs| => LengthFragment(vs[i]))
  }

  /** The violation lines, in the order they are reported. */
  function LengthLines(vs: seq<LengthViolation>): seq<string> {
    Texts(LengthFragments(vs))
  }

  /**
   * `check_length`: passes exactly when every length rule holds; otherwise it
   * fails with every violation on its own line, joined by newlines.
   */
  function CheckLength(d: FormData, e: EndpointConfig): (r: Outcome<string>)
    ensures r.Pass? <==> WithinLimits(d, e)
    ensures r.Fail? ==> r.error == Join(LengthLines(LengthViolations(d, e)), "\n")
    ensures r.Fail? ==> Clean(r.error)
  {
    var vs := LengthViolations(d, e);
    NoViolationsIffWithinLimits(d, e);
    if vs == [] then Pass
    else
      LengthReport(vs);
      Fail(Render(LengthFragments(vs)))
  }

  /** Length violations in field order render as their lines joined by newlines. */
  lemma LengthReport(vs: seq<LengthViolation>)
    requires vs != [] && Ascending(vs)
    ensures Render(LengthFragments(vs)) == Join(LengthLines(vs), "\n")
    ensures Clean(Render(LengthFragments(vs)))
  {
    var fs := LengthFragments(vs);
    forall i | 0 <= i < |fs| - 1
      ensures fs[i].newline
    {
      assert Rank(vs[i].field) < Rank(vs[|vs| - 1].field);
    }
    forall i | 0 <= i < |fs|
      ensures Clean(fs[i].text)
    {
      assert fs[i] == LengthFragment(vs[i]);
    }
    RenderAsLines(fs);
  }

  /**
   * The optional phone: an empty phone is never flagged, a phone of one to
   * three bytes is always flagged as too short, and a four-byte phone never is.
   */
  lemma PhoneRules(d: FormData, e: EndpointConfig)
    ensures d.phone == "" ==> forall v :: v in LengthViolations(d, e) ==> v.field != Phone
    ensures 1 <= ByteLength(d.phone) <= 3 ==>
              TooShort(Phone, ByteLength(d.phone), MinPhoneLength) in LengthViolations(d, e)
    ensures ByteLength(d.phone) == 4 ==>
              forall v :: v in LengthViolations(d, e) ==> v.field != Phone
  {
  }

  /** Every line names its field, so lines about different fields differ. */
  lemma LengthLinesDistinct(v: LengthViolation, w: LengthViolation)
    requires v.field != w.field
    ensures LengthFragment(v).text != LengthFragment(w).text
  {
    var t, u := LengthFragment(v).text, LengthFragment(w).text;
    var pv := "Field \"" + FieldName(v.field);
    var pw := "Field \"" + FieldName(w.field);
    assert t[7] == pv[7] && u[7] == pw[7];
  }

  /**
   * The validator is aggregate: a name and a message that are both too long
   * give one report with two distinct lines, the name's first.
   */
  lemma NameAndMessageBothReported(d: FormData, e: EndpointConfig)
    requires ByteLength(d.name) > e.maxNameLength
    requires ByteLength(d.message) > e.maxMessageLength
    ensures CheckLength(d, e).Fail?
    ensures var lines := LengthLines(LengthViolations(d, e));
            && |lines| >= 2
            && lines[0] == LengthFragment(TooLong(Name, ByteLength(d.name), e.maxNameLength)).text
            && lines[|lines| - 1] == LengthFragment(TooLong(Message, ByteLength(d.message), e.maxMessageLength)).text
            && lines[0] != lines[|lines| - 1]
  {
    var vs := LengthViolations(d, e);
    var vn := TooLong(Name, ByteLength(d.name), e.maxNameLength);
    var vm := TooLong(Message, ByteLength(d.message), e.maxMessageLength);
    assert Breaks(d, e, vn) && Breaks(d, e, vm);
    FirstAndLastLines(vs, vn, vm);
    var fs := LengthFragments(vs);
    assert fs[0] == LengthFragment(vn) && fs[|fs| - 1] == LengthFragment(vm);
    LengthLinesDistinct(vn, vm);
  }

  /** In field order, a name violation comes first and a message violation last. */
  lemma FirstAndLastLines(vs: seq<LengthViolation>, vn: LengthViolation, vm: LengthViolation)
    requires Ascending(vs) && vn in vs && vm in vs
    requires vn.field == Name && vm.field == Message
    ensures |vs| >= 2 && vs[0] == vn && vs[|vs| - 1] == vm
  {
    var i :| 0 <= i < |vs| && vs[i] == vn;
    var j :| 0 <= j < |vs| && vs[j] == vm;
    assert forall k :: 0 < k < |vs| ==> Rank(vs[0].field) < Rank(vs[k].field);
    assert i == 0;
    assert forall k :: 0 <= k < |vs| - 1 ==> Rank(vs[k].field) < Rank(vs[|vs| - 1].field) <= 3;
    assert j == |vs| - 1;
  }

  // ---------------------------------------------------------------------
  // check_existence
  // ---------------------------------------------------------------------

  /** What the probe's syntax sub-check reports. */
  datatype SyntaxDetails = SyntaxDetails(validFormat: bool)

  /** What the probe's SMTP sub-check reports. */
  datatype SmtpDetails = SmtpDetails(hasFullInbox: bool, isDeliverable: bool, isDisabled: bool)

  /** What the probe's miscellaneous sub-check reports. */
  datatype MiscDetails = MiscDetails(isDisposable: bool)

  /** A sub-check that could not finish, with its `{:?}` rendering. */
  datatype ProbeError = ProbeError(debug: string)

  datatype Probed<+T> = Ok(details: T) | Err(problem: ProbeError)

  /** The three independent sub-results of one email probe. */
  datatype ProbeResult = ProbeResult(
    syntax: Probed<SyntaxDetails>,
    smtp: Probed<SmtpDetails>,
    misc: Probed<MiscDetails>
  )

  /** A conclusive negative found by the probe. */
  datatype ExistenceViolation =
    | InvalidFormat(address: string)
    | SyntaxUnchecked(debug: string)
    | FullInbox(address: string)
    | Undeliverable(address: string)
    | Disabled(address: string)
    | Disposable(address: string)

  /**
   * Where a finding's kind stands in the report: the syntax check's finding
   * first, then full inbox, undeliverable and disabled, then disposable.
   */
  function ReportRank(v: ExistenceViolation): nat {
    match v
    case InvalidFormat(_) => 0
    case SyntaxUnchecked(_) => 0
    case FullInbox(_) => 1
    case Undeliverable(_) => 2
    case Disabled(_) => 3
    case Disposable(_) => 4
  }

  /** Strictly ascending in `ReportRank`: in report order, and no kind twice. */
  predicate InReportOrder(vs: seq<ExistenceViolation>) {
    forall i, j :: 0 <= i < j < |vs| ==> ReportRank(vs[i]) < ReportRank(vs[j])
  }

  /**
   * The syntax finding (rank 0, at most one), the SMTP findings (ranks 1 to 3,
   * in order) and the disposable finding (rank 4, at most one) joined in that
   * order are in report order.
   */
  lemma ReportOrderJoin(syntax: seq<ExistenceViolation>, smtp: seq<ExistenceViolation>, misc: seq<ExistenceViolation>)
    requires |syntax| <= 1 && |smtp| <= 3 && |misc| <= 1 && InReportOrder(smtp)
    requires forall i :: 0 <= i < |syntax| ==> ReportRank(syntax[i]) == 0
    requires forall i :: 0 <= i < |smtp| ==> 1 <= ReportRank(smtp[i]) <= 3
    requires forall i :: 0 <= i < |misc| ==> ReportRank(misc[i]) == 4
    ensures |syntax + smtp + misc| <= 5 && InReportOrder(syntax + smtp + misc)
  {
    var vs := syntax + smtp + misc;
    var a := |syntax|;
    var b := |syntax| + |smtp|;
    forall i, j | 0 <= i < j < |vs|
      ensures ReportRank(vs[i]) < ReportRank(vs[j])
    {
      if j < a {
      } else if j < b {
        assert vs[j] == smtp[j - a];
        if i >= a {
          assert vs[i] == smtp[i - a];
        }
      } else {
        assert vs[j] == misc[j - b];
        if i >= a {
          assert vs[i] == smtp[i - a];
        }
      }
    }
  }

  /** What the syntax sub-result contributes: an invalid format, or the error itself. */
  function SyntaxFindings(address: string, syntax: Probed<SyntaxDetails>): (vs: seq<ExistenceViolation>)
    ensures |vs| <= 1 && forall i :: 0 <= i < |vs| ==> ReportRank(vs[i]) == 0
    ensures InvalidFormat(address) in vs <==> syntax.Ok? && !syntax.details.validFormat
    ensures syntax.Err? ==> SyntaxUnchecked(syntax.problem.debug) in vs
    ensures forall v :: v in vs ==> v == InvalidFormat(address) || (syntax.Err? && v == SyntaxUnchecked(syntax.problem.debug))
  {
    match syntax
    case Ok(s) => if !s.validFormat then [InvalidFormat(address)] else []
    case Err(e) => [SyntaxUnchecked(e.debug)]
  }

  /** What the SMTP sub-result contributes; an error contributes nothing. */
  function SmtpFindings(address: string, smtp: Probed<SmtpDetails>): (vs: seq<ExistenceViolation>)
    ensures FullInbox(address) in vs <==> smtp.Ok? && smtp.details.hasFullInbox
    ensures Undeliverable(address) in vs <==> smtp.Ok? && !smtp.details.isDeliverable
    ensures Disabled(address) in vs <==> smtp.Ok? && smtp.details.isDisabled
    ensures forall v :: v in vs ==> v in {FullInbox(address), Undeliverable(address), Disabled(address)}
  {
    match smtp
    case Ok(s) =>
      (if s.hasFullInbox then [FullInbox(address)] else [])
      + (if !s.isDeliverable then [Undeliverable(address)] else [])
      + (if s.isDisabled then [Disabled(address)] else [])
    case Err(_) => []
  }

  /** The SMTP findings come full inbox, undeliverable, disabled, each at most once. */
  lemma SmtpFindingsInOrder(address: string, smtp: Probed<SmtpDetails>)
    ensures var vs := SmtpFindings(address, smtp);
            && |vs| <= 3 && InReportOrder(vs)
            && forall i :: 0 <= i < |vs| ==> 1 <= ReportRank(vs[i]) <= 3
  {
    if smtp.Ok? {
      var s := smtp.details;
      SmtpOrder(if s.hasFullInbox then [FullInbox(address)] else [],
                if !s.isDeliverable then [Undeliverable(address)] else [],
                if s.isDisabled then [Disabled(address)] else []);
    }
  }

  /** At most one full-inbox, undeliverable and disabled finding each, joined in that order. */
  lemma SmtpOrder(a: seq<ExistenceViolation>, b: seq<ExistenceViolation>, c: seq<ExistenceViolation>)
    requires |a| <= 1 && |b| <= 1 && |c| <= 1
    requires forall i :: 0 <= i < |a| ==> a[i].FullInbox?
    requires forall i :: 0 <= i < |b| ==> b[i].Undeliverable?
    requires forall i :: 0 <= i < |c| ==> c[i].Disabled?
    ensures |a + b + c| <= 3 && InReportOrder(a + b + c)
    ensures forall i :: 0 <= i < |a + b + c| ==> 1 <= ReportRank((a + b + c)[i]) <= 3
  {
    var vs := a + b + c;
    forall i | 0 <= i < |vs|
      ensures ReportRank(vs[i]) == if i < |a| then 1 else if i < |a| + |b| then 2 else 3
    {
      if i < |a| {
        assert vs[i] == a[i];
      } else if i < |a| + |b| {
        assert vs[i] == b[i - |a|];
      } else {
        assert vs[i] == c[i - |a| - |b|];
      }
    }
  }

  /** What the miscellaneous sub-result contributes; an error contributes nothing. */
  function MiscFindings(address: string, misc: Probed<MiscDetails>): (vs: seq<ExistenceViolation>)
    ensures Disposable(address) in vs <==> misc.Ok? && misc.details.isDisposable
    ensures forall v :: v in vs ==> v == Disposable(address)
    ensures |vs| <= 1 && forall i :: 0 <= i < |vs| ==> ReportRank(vs[i]) == 4
  {
    match misc
    case Ok(m) => if m.isDisposable then [Disposable(address)] else []
    case Err(_) => []
  }

  /** The probe is inconclusive or positive on every count: what `check_existence` accepts. */
  ghost predicate Deliverable(p: ProbeResult) {
    && p.syntax.Ok? && p.syntax.details.validFormat
    && (p.smtp.Ok? ==> !p.smtp.details.hasFullInbox && p.smtp.details.isDeliverable && !p.smtp.details.isDisabled)
    && (p.misc.Ok? ==> !p.misc.details.isDisposable)
  }

  /**
   * The probe's conclusive negatives, in the order the source reports them
   * and at most one of each kind: none exactly when the probe lets the address
   * through.
   */
  function ExistenceViolations(address: string, p: ProbeResult): (vs: seq<ExistenceViolation>)
    ensures vs == [] <==> Deliverable(p)
    ensures p.syntax.Ok? ==> forall v :: v in vs ==> !v.SyntaxUnchecked?
    ensures |vs| <= 5 && InReportOrder(vs)
  {
    var syntax := SyntaxFindings(address, p.syntax);
    var smtp := SmtpFindings(address, p.smtp);
    var misc := MiscFindings(address, p.misc);
    SmtpFindingsInOrder(address, p.smtp);
    ReportOrderJoin(syntax, smtp, misc);
    syntax + smtp + misc
  }

  /**
   * Each finding corresponds to one conclusive negative of the probe, and an
   * errored SMTP or miscellaneous sub-check contributes nothing.
   */
  lemma ExistenceFindings(address: string, p: ProbeResult)
    ensures var vs := ExistenceViolations(address, p);
            && (InvalidFormat(address) in vs <==> p.syntax.Ok? && !p.syntax.details.validFormat)
            && (p.syntax.Err? ==> SyntaxUnchecked(p.syntax.problem.debug) in vs)
            && (FullInbox(address) in vs <==> p.smtp.Ok? && p.smtp.details.hasFullInbox)
            && (Undeliverable(address) in vs <==> p.smtp.Ok? && !p.smtp.details.isDeliverable)
            && (Disabled(address) in vs <==> p.smtp.Ok? && p.smtp.details.isDisabled)
            && (Disposable(address) in vs <==> p.misc.Ok? && p.misc.details.isDisposable)
            && (forall v :: v in vs && !v.SyntaxUnchecked? ==> v.address == address)
            && (forall v :: v in vs && v.SyntaxUnchecked? ==> p.syntax == Err(ProbeError(v.debug)))
  {
    var syntax := SyntaxFindings(address, p.syntax);
    var smtp := SmtpFindings(address, p.smtp);
    var misc := MiscFindings(address, p.misc);
    FindingsFromParts(address, p, syntax, smtp, misc);
  }

  /** The findings of the three parts, joined, keep each part's findings and add none. */
  lemma FindingsFromParts(address: string, p: ProbeResult, syntax: seq<ExistenceViolation>, smtp: seq<ExistenceViolation>, misc: seq<ExistenceViolation>)
    requires InvalidFormat(address) in syntax <==> p.syntax.Ok? && !p.syntax.details.validFormat
    requires p.syntax.Err? ==> SyntaxUnchecked(p.syntax.problem.debug) in syntax
    requires forall v :: v in syntax ==> v == InvalidFormat(address) || (p.syntax.Err? && v == SyntaxUnchecked(p.syntax.problem.debug))
    requires FullInbox(address) in smtp <==> p.smtp.Ok? && p.smtp.details.hasFullInbox
    requires Undeliverable(address) in smtp <==> p.smtp.Ok? && !p.smtp.details.isDeliverable
    requires Disabled(address) in smtp <==> p.smtp.Ok? && p.smtp.details.isDisabled
    requires forall v :: v in smtp ==> v in {FullInbox(address), Undeliverable(address), Disabled(address)}
    requires Disposable(address) in misc <==> p.misc.Ok? && p.misc.details.isDisposable
    requires forall v :: v in misc ==> v == Disposable(address)
    ensures var vs := syntax + smtp + misc;
            && (InvalidFormat(address) in vs <==> p.syntax.Ok? && !p.syntax.details.validFormat)
            && (p.syntax.Err? ==> SyntaxUnchecked(p.syntax.problem.debug) in vs)
            && (FullInbox(address) in vs <==> p.smtp.Ok? && p.smtp.details.hasFullInbox)
            && (Undeliverable(address) in vs <==> p.smtp.Ok? && !p.smtp.details.isDeliverable)
            && (Disabled(address) in vs <==> p.smtp.Ok? && p.smtp.details.isDisabled)
            && (Disposable(address) in vs <==> p.misc.Ok? && p.misc.details.isDisposable)
            && (forall v :: v in vs && !v.SyntaxUnchecked? ==> v.address == address)
            && (forall v :: v in vs && v.SyntaxUnchecked? ==> p.syntax == Err(ProbeError(v.debug)))
  {
    assert forall v :: v in syntax + smtp + misc <==> v in syntax || v in smtp || v in misc;
  }

  /** The text the source appends for a probe finding; only the syntax error lacks a newline. */
  function ExistenceFragment(v: ExistenceViolation): (f: Fragment)
    ensures f.text != [] && !IsWhitespace(f.text[0])
    ensures !v.SyntaxUnchecked? ==> Clean(f.text)
    ensures f.newline <==> !v.SyntaxUnchecked?
  {
    match v
    case InvalidFormat(a) =>
      Fragment(Around("The provided email adress \"", a, "\" seems to be invalid."), true)
    case SyntaxUnchecked(debug) =>
      Fragment("Error while checking email syntax: " + debug, false)
    case FullInbox(a) =>
      Fragment(Around("The provided email adress \"", a, "\" has a full inbox and can't receive new emails."), true)
    case Undeliverable(a) =>
      Fragment(Around("Email can't be delivered to adress \"", a, "\"."), true)
    case Disabled(a) =>
      Fragment(Around("Your Mailserver provider " + "blocked/disabled the email adress \"", a, "\"."), true)
    case Disposable(a) =>
      Fragment(Around("The provided email adress \"", a, "\" seems to be disposable/invalid adress."), true)
  }

  function ExistenceFragments(vs: seq<ExistenceViolation>): seq<Fragment> {
    seq(|vs|, i requires 0 <= i < |vs| => ExistenceFragment(vs[i]))
  }

  /**
   * `check_existence` over the probe's result for `d.email`: fails exactly on a
   * conclusive negative, with a non-empty report; when the syntax sub-check
   * finished, each finding is on its own line.
   */
  function CheckExistence(d: FormData, p: ProbeResult): (r: Outcome<string>)
    ensures r.Pass? <==> Deliverable(p)
    ensures r.Fail? ==> Clean(r.error)
    ensures r.Fail? && p.syntax.Ok? ==>
              r.error == Join(Texts(ExistenceFragments(ExistenceViolations(d.email, p))), "\n")
  {
    var vs := ExistenceViolations(d.email, p);
    if vs == [] then Pass
    else
      ExistenceReport(vs);
      Fail(Render(ExistenceFragments(vs)))
  }

  /**
   * Probe findings always render as a non-empty report; without a syntax error
   * among them, as their lines joined by newlines.
   */
  lemma ExistenceReport(vs: seq<ExistenceViolation>)
    requires vs != []
    ensures Clean(Render(ExistenceFragments(vs)))
    ensures (forall v :: v in vs ==> !v.SyntaxUnchecked?) ==>
              Render(ExistenceFragments(vs)) == Join(Texts(ExistenceFragments(vs)), "\n")
  {
    var fs := ExistenceFragments(vs);
    assert fs[0] == ExistenceFragment(vs[0]);
    RenderNonEmpty(fs);
    if forall v :: v in vs ==> !v.SyntaxUnchecked? {
      forall i | 0 <= i < |fs|
        ensures Clean(fs[i].text) && fs[i].newline
      {
        assert vs[i] in vs;
        assert fs[i] == ExistenceFragment(vs[i]);
      }
      RenderAsLines(fs);
    }
  }

  /**
   * An SMTP or miscellaneous sub-check that errored, skipped or not, never
   * decides the verdict: it counts as a clean result.
   */
  lemma ProbeErrorsIgnored(d: FormData, p: ProbeResult)
    ensures p.smtp.Err? ==>
              (CheckExistence(d, p).Pass? <==>
               CheckExistence(d, p.(smtp := Ok(SmtpDetails(false, true, false)))).Pass?)
    ensures p.misc.Err? ==>
              (CheckExistence(d, p).Pass? <==>
               CheckExistence(d, p.(misc := Ok(MiscDetails(false)))).Pass?)
    ensures p.syntax == Ok(SyntaxDetails(true)) && p.smtp.Err? && p.misc.Err? ==>
              CheckExistence(d, p).Pass?
  {
  }

  /** A fragment without a newline runs straight into the next one. */
  lemma AccumulateGlued(f: Fragment, g: Fragment)
    requires !f.newline && g.newline
    ensures Accumulate([f, g]) == f.text + g.text + "\n"
  {
    assert [f, g][1..] == [g];
    assert [g][1..] == [];
    assert Piece(f) == f.text;
    assert Accumulate([g]) == Piece(g) + "";
    assert Piece(g) + "" == g.text + "\n";
  }

  /**
   * The syntax-error text is appended without a newline, so a finding that
   * follows it continues the same line of the report.
   */
  lemma SyntaxErrorSharesLine(d: FormData, debug: string)
    requires Clean(debug)
    ensures var p := ProbeResult(Err(ProbeError(debug)), Ok(SmtpDetails(true, true, false)), Err(ProbeError("")));
            CheckExistence(d, p).error
            == ExistenceFragment(SyntaxUnchecked(debug)).text + ExistenceFragment(FullInbox(d.email)).text
  {
    var p := ProbeResult(Err(ProbeError(debug)), Ok(SmtpDetails(true, true, false)), Err(ProbeError("")));
    var vs := ExistenceViolations(d.email, p);
    assert vs == [SyntaxUnchecked(debug), FullInbox(d.email)];
    var fs := ExistenceFragments(vs);
    var glued := fs[0].text + fs[1].text;
    assert fs == [fs[0], fs[1]];
    AccumulateGlued(fs[0], fs[1]);
    assert glued[|glued| - 1] == '.';
    TrimSurrounded(glued);
  }
}

=== FILE: handler.dfy ===
/**
 * The `index` route: find the endpoint the form names, then run the length
 * check, the existence check and the delivery in that order. The first stage
 * that fails decides the one response; later stages are skipped.
 *
 * The two effects the route waits on are inputs here: `probe` is what the
 * email probe reports for the submitted address, and `delivery` is what the
 * SMTP transport answers. The model records which effects the route performs,
 * so "skipped" is a statement about the recorded steps.
 */
module Handler {
  import opened Wrappers
  import opened Configuration
  import opened Form
  import opened Email

  // ---------------------------------------------------------------------
  // Endpoint resolution
  // ---------------------------------------------------------------------

  /** `i` is the first position in `es` whose identifier is `id`. */
  ghost predicate IsFirstMatch(es: seq<EndpointConfig>, id: string, i: int) {
    && 0 <= i < |es|
    && es[i].identifier == id
    && forall j :: 0 <= j < i ==> es[j].identifier != id
  }

  /** `iter().find` over the configured endpoints: the position of the first match, if any. */
  function Resolve(es: seq<EndpointConfig>, id: string): (r: Option<nat>)
    ensures r.Some? ==> IsFirstMatch(es, id, r.value)
    ensures r.None? <==> forall j :: 0 <= j < |es| ==> es[j].identifier != id
  {
    if es == [] then None
    else if es[0].identifier == id then Some(0)
    else
      match Resolve(es[1..], id)
      case None => None
      case Some(k) => Some(k + 1)
  }

  /** Resolution is exactly the first match: it answers `i` if and only if `i` is the first match. */
  lemma ResolveIsFirstMatch(es: seq<EndpointConfig>, id: string, i: int)
    ensures Resolve(es, id) == Some(i) <==> IsFirstMatch(es, id, i)
  {
    if IsFirstMatch(es, id, i) {
      assert es[i].identifier == id;
    }
  }

  /** Endpoints appended after a match never change which endpoint answers. */
  lemma {:induction false} ResolveIgnoresLater(es: seq<EndpointConfig>, more: seq<EndpointConfig>, id: string)
    requires Resolve(es, id).Some?
    ensures Resolve(es + more, id) == Resolve(es, id)
    decreases |es|
  {
    if es[0].identifier != id {
      assert (es + more)[1..] == es[1..] + more;
      ResolveIgnoresLater(es[1..], more, id);
    }
  }

  /** With unique identifiers the endpoint carrying `id` is the one resolved. */
  lemma ResolveUnique(es: seq<EndpointConfig>, id: string, i: nat)
    requires i < |es| && es[i].identifier == id
    requires forall j, k :: 0 <= j < k < |es| ==> es[j].identifier != es[k].identifier
    ensures Resolve(es, id) == Some(i)
  {
    ResolveIsFirstMatch(es, id, i);
  }

  // ---------------------------------------------------------------------
  // Responses
  // ---------------------------------------------------------------------

  /** An HTTP status with a plain body. */
  datatype Response = Response(status: nat, body: string)

  const StatusOk: nat := 200
  const NotAcceptable: nat := 406
  const PayloadTooLarge: nat := 413
  const InternalServerError: nat := 500

  /** The address `check_existence` probes from. */
  const ProbeSender: string := "dh@atoav.com"

  const ThankYou: string := "Thank you for your message. I will come back to you soon."

  /** Whether `t` ends with `suffix`. */
  predicate EndsWith(t: string, suffix: string) {
    |suffix| <= |t| && t[|t| - |suffix|..] == suffix
  }

  /** The answer for an identifier no endpoint carries: 406, naming the identifier. */
  function UnknownEndpoint(id: string): (r: Response)
    ensures r.status == NotAcceptable
    ensures |r.body| > 47 + |id| && r.body[47..47 + |id|] == id
  {
    var prefix := "Error: The Endpoint with the identifier-value \"";
    assert |prefix| == 47;
    var body := prefix + id + "\" was not named in the config";
    assert body[47..47 + |id|] == id by {
      assert body == prefix + (id + "\" was not named in the config");
    }
    Response(NotAcceptable, body)
  }

  /** The answer to a failed length check: 413, ending with the check's report. */
  function LengthRejected(error: string): (r: Response)
    ensures r.status == PayloadTooLarge
    ensures EndsWith(r.body, error)
  {
    Response(PayloadTooLarge, "Error while checking form data: " + error)
  }

  /** The answer to a failed existence check: 406, ending with the check's report. */
  function ExistenceRejected(error: string): (r: Response)
    ensures r.status == NotAcceptable
    ensures EndsWith(r.body, error)
  {
    Response(NotAcceptable, "Error while checking mail validity: " + error)
  }

  /** The answer after handing the mail over: 200 with thanks, or 500 ending with the transport's error. */
  function Delivered(outcome: Outcome<string>): (r: Response)
    ensures r.status == (if outcome.Pass? then StatusOk else InternalServerError)
    ensures outcome.Pass? ==> r.body == ThankYou
    ensures outcome.Fail? ==> EndsWith(r.body, outcome.error)
  {
    match outcome
    case Pass => Response(StatusOk, ThankYou)
    case Fail(error) => Response(InternalServerError, "Error while sending mail: " + error)
  }

  // ---------------------------------------------------------------------
  // The pipeline
  // ---------------------------------------------------------------------

  /** An effect or check the route performed. */
  datatype Step =
    | LengthChecked
    | ExistenceProbed(address: string, sender: string)
    | MailSent(server: ServerConfig, mail: Mail)

  /** The verdicts a registered endpoint leads to, and the mail it would send. */
  datatype Verdicts = Verdicts(length: Outcome<string>, existence: Outcome<string>, mail: Mail)

  /** The route's state between stages: the response so far, and what it has done. */
  datatype Progress = Progress(response: Option<Response>, steps: seq<Step>)

  /** What a request yields: exactly one response, and the steps taken. */
  datatype Handled = Handled(response: Response, steps: seq<Step>)

  /** Before a response is set, an endpoint has been found, so its verdicts exist. */
  ghost predicate Ready(pr: Progress, resolved: Option<Verdicts>) {
    pr.response.None? ==> resolved.Some?
  }

  /**
   * Runs the length check unless a response is already set: one more step,
   * and a 413 carrying the check's report exactly when the check fails.
   */
  function LengthStage(pr: Progress, resolved: Option<Verdicts>): (r: Progress)
    requires Ready(pr, resolved)
    ensures Ready(r, resolved)
    ensures pr.response.Some? ==> r == pr
    ensures pr.steps <= r.steps && |r.steps| == |pr.steps| + (if pr.response.None? then 1 else 0)
    ensures pr.response.None? ==> r.steps[|pr.steps|].LengthChecked?
    ensures pr.response.None? ==> (r.response.Some? <==> resolved.value.length.Fail?)
    ensures pr.response.None? && r.response.Some? ==>
              r.response.value.status == PayloadTooLarge && EndsWith(r.response.value.body, resolved.value.length.error)
  {
    if pr.response.Some? then pr
    else
      var outcome := resolved.value.length;
      Progress(if outcome.Fail? then Some(LengthRejected(outcome.error)) else None, pr.steps + [LengthChecked])
  }

  /**
   * Probes the submitted address unless a response is already set: one more
   * step, and a 406 carrying the check's report exactly when the check fails.
   */
  function ExistenceStage(pr: Progress, resolved: Option<Verdicts>, address: string): (r: Progress)
    requires Ready(pr, resolved)
    ensures Ready(r, resolved)
    ensures pr.response.Some? ==> r == pr
    ensures pr.steps <= r.steps && |r.steps| == |pr.steps| + (if pr.response.None? then 1 else 0)
    ensures pr.response.None? ==> r.steps[|pr.steps|] == ExistenceProbed(address, ProbeSender)
    ensures pr.response.None? ==> (r.response.Some? <==> resolved.value.existence.Fail?)
    ensures pr.response.None? && r.response.Some? ==>
              r.response.value.status == NotAcceptable && EndsWith(r.response.value.body, resolved.value.existence.error)
  {
    if pr.response.Some? then pr
    else
      var outcome := resolved.value.existence;
      Progress(if outcome.Fail? then Some(ExistenceRejected(outcome.error)) else None,
               pr.steps + [ExistenceProbed(address, ProbeSender)])
  }

  /**
   * Sends the mail unless a response is already set; afterwards a response
   * always exists, and a send answers 200 or 500 by the transport's answer.
   */
  function SendStage(pr: Progress, resolved: Option<Verdicts>, server: ServerConfig, delivery: Outcome<string>): (r: Progress)
    requires Ready(pr, resolved)
    ensures r.response.Some?
    ensures pr.response.Some? ==> r == pr
    ensures pr.steps <= r.steps && |r.steps| == |pr.steps| + (if pr.response.None? then 1 else 0)
    ensures pr.response.None? ==> r.steps[|pr.steps|] == MailSent(server, resolved.value.mail)
    ensures pr.response.None? ==>
              r.response.value.status == (if delivery.Pass? then StatusOk else InternalServerError)
  {
    if pr.response.Some? then pr
    else Progress(Some(Delivered(delivery)), pr.steps + [MailSent(server, resolved.value.mail)])
  }

  /**
   * The route's control flow over given verdicts: the response starts unset
   * (or set to 406 when no endpoint was found) and each stage runs only while
   * it is unset, so the final unwrap always succeeds.
   */
  function Pipeline(id: string, address: string, server: ServerConfig, resolved: Option<Verdicts>, delivery: Outcome<string>): (h: Handled)
    ensures h.response.status in {StatusOk, NotAcceptable, PayloadTooLarge, InternalServerError}
  {
    var start := Progress(if resolved.None? then Some(UnknownEndpoint(id)) else None, []);
    var afterLength := LengthStage(start, resolved);
    var afterProbe := ExistenceStage(afterLength, resolved, address);
    var done := SendStage(afterProbe, resolved, server, delivery);
    Handled(done.response.value, done.steps)
  }

  /**
   * The decision table: an unknown endpoint answers 406 with no step, a length
   * failure 413 after the length check alone, a probe failure 406 after the
   * probe, and otherwise the mail is sent and the transport's answer decides.
   */
  lemma PipelineDecisions(id: string, address: string, server: ServerConfig, resolved: Option<Verdicts>, delivery: Outcome<string>)
    ensures var h := Pipeline(id, address, server, resolved, delivery);
            && (resolved.None? ==> h == Handled(UnknownEndpoint(id), []))
            && (resolved.Some? && resolved.value.length.Fail? ==>
                  h == Handled(LengthRejected(resolved.value.length.error), [LengthChecked]))
            && (resolved.Some? && resolved.value.length.Pass? && resolved.value.existence.Fail? ==>
                  h == Handled(ExistenceRejected(resolved.value.existence.error),
                               [LengthChecked, ExistenceProbed(address, ProbeSender)]))
            && (resolved.Some? && resolved.value.length.Pass? && resolved.value.existence.Pass? ==>
                  h == Handled(Delivered(delivery),
                               [LengthChecked, ExistenceProbed(address, ProbeSender), MailSent(server, resolved.value.mail)]))
  {
  }

  /** The mail is sent exactly when every check passed, and never twice. */
  lemma PipelineSendsIffPassed(id: string, address: string, server: ServerConfig, resolved: Option<Verdicts>, delivery: Outcome<string>)
    ensures var h := Pipeline(id, address, server, resolved, delivery);
            && ((forall s :: s in h.steps ==> !s.MailSent?) <==>
                !(resolved.Some? && resolved.value.length.Pass? && resolved.value.existence.Pass?))
            && (forall i, j :: 0 <= i < j < |h.steps| ==> !(h.steps[i].MailSent? && h.steps[j].MailSent?))
  {
    var h := Pipeline(id, address, server, resolved, delivery);
    PipelineDecisions(id, address, server, resolved, delivery);
    if resolved.Some? && resolved.value.length.Pass? && resolved.value.existence.Pass? {
      assert h.steps[2] in h.steps;
    }
  }

  /** Swapping the server changes nothing but the server the mail is handed to. */
  lemma PipelineIgnoresServer(id: string, address: string, server: ServerConfig, server': ServerConfig,
                              resolved: Option<Verdicts>, delivery: Outcome<string>)
    ensures var h := Pipeline(id, address, server, resolved, delivery);
            var h' := Pipeline(id, address, server', resolved, delivery);
            && h'.response == h.response
            && |h'.steps| == |h.steps|
            && forall k :: 0 <= k < |h.steps| && h.steps[k].MailSent? ==>
                 h'.steps[k] == MailSent(server', h.steps[k].mail)
  {
    PipelineDecisions(id, address, server, resolved, delivery);
    PipelineDecisions(id, address, server', resolved, delivery);
  }

  /** The request reaches delivery: a registered endpoint, every length rule kept, no probe negative. */
  ghost predicate Admitted(d: FormData, c: Config, probe: ProbeResult) {
    var found := Resolve(c.endpoints, d.identifier);
    && found.Some?
    && WithinLimits(d, c.endpoints[found.value])
    && Deliverable(probe)
  }

  /** What the checks say about a request for endpoint `e`, and the mail it would send. */
  function VerdictsFor(d: FormData, e: EndpointConfig, probe: ProbeResult): (v: Verdicts)
    ensures v.length.Pass? <==> WithinLimits(d, e)
    ensures v.existence.Pass? <==> Deliverable(probe)
  {
    Verdicts(CheckLength(d, e), CheckExistence(d, probe), Compose(d, e))
  }

  /** The found endpoint's verdicts, as `Index` passes them to the pipeline. */
  function Resolved(d: FormData, c: Config, probe: ProbeResult): (r: Option<Verdicts>)
    ensures r.None? <==> Resolve(c.endpoints, d.identifier).None?
    ensures r.Some? && r.value.length.Pass? && r.value.existence.Pass? <==> Admitted(d, c, probe)
  {
    match Resolve(c.endpoints, d.identifier)
    case None => None
    case Some(i) => Some(VerdictsFor(d, c.endpoints[i], probe))
  }

  /**
   * The `index` route. The probe and the transport are represented by their
   * answers; a check or send whose answer the route never waits for does not
   * appear among the steps.
   */
  function Index(d: FormData, c: Config, probe: ProbeResult, delivery: Outcome<string>): (h: Handled)
    ensures h.response.status in {StatusOk, NotAcceptable, PayloadTooLarge, InternalServerError}
  {
    Pipeline(d.identifier, d.email, c.server, Resolved(d, c, probe), delivery)
  }

  /**
   * The decision table of `index` in terms of the checks' own conditions:
   * 406 for an unknown identifier, 413 for a broken length rule, 406 for a
   * probe negative, and otherwise the transport's answer after the send.
   */
  lemma IndexDecisions(d: FormData, c: Config, probe: ProbeResult, delivery: Outcome<string>)
    ensures var found := Resolve(c.endpoints, d.identifier);
            var h := Index(d, c, probe, delivery);
            && (found.None? ==> h == Handled(UnknownEndpoint(d.identifier), []))
            && (found.Some? && !WithinLimits(d, c.endpoints[found.value]) ==>
                  h == Handled(LengthRejected(CheckLength(d, c.endpoints[found.value]).error), [LengthChecked]))
            && (found.Some? && WithinLimits(d, c.endpoints[found.value]) && !Deliverable(probe) ==>
                  h == Handled(ExistenceRejected(CheckExistence(d, probe).error),
                               [LengthChecked, ExistenceProbed(d.email, ProbeSender)]))
            && (Admitted(d, c, probe) ==>
                  h == Handled(Delivered(delivery),
                               [LengthChecked, ExistenceProbed(d.email, ProbeSender),
                                MailSent(c.server, Compose(d, c.endpoints[found.value]))]))
  {
    PipelineDecisions(d.identifier, d.email, c.server, Resolved(d, c, probe), delivery);
  }

  /** The mail is sent exactly when the request is admitted, and never twice. */
  lemma SendIffAdmitted(d: FormData, c: Config, probe: ProbeResult, delivery: Outcome<string>)
    ensures var h := Index(d, c, probe, delivery);
            && ((forall s :: s in h.steps ==> !s.MailSent?) <==> !Admitted(d, c, probe))
            && (forall i, j :: 0 <= i < j < |h.steps| ==> !(h.steps[i].MailSent? && h.steps[j].MailSent?))
  {
    PipelineSendsIffPassed(d.identifier, d.email, c.server, Resolved(d, c, probe), delivery);
  }

  /**
   * The server section of the configuration reaches only the transport: with
   * another server the response is the same and any mail sent is the same.
   */
  lemma MailIgnoresServer(d: FormData, c: Config, server: ServerConfig, probe: ProbeResult, delivery: Outcome<string>)
    ensures var h := Index(d, c, probe, delivery);
            var h' := Index(d, c.(server := server), probe, delivery);
            && h'.response == h.response
            && |h'.steps| == |h.steps|
            && forall k :: 0 <= k < |h.steps| && h.steps[k].MailSent? ==>
                 h'.steps[k] == MailSent(server, h.steps[k].mail)
  {
    assert Resolved(d, c.(server := server), probe) == Resolved(d, c, probe);
    PipelineIgnoresServer(d.identifier, d.email, c.server, server, Resolved(d, c, probe), delivery);
  }
}

=== FILE: text.dfy ===
/**
 * Text primitives the relay relies on, with Rust's `String` semantics:
 * a Rust string is a UTF-8 byte buffer, so `.len()` counts bytes, `trim`
 * strips Unicode White_Space, `replace` agrees with split-then-join,
 * and `{}` prints an unsigned integer in decimal.
 */
module Text {

  newtype byte = x: int | 0 <= x < 256

  // ---------------------------------------------------------------------
  // UTF-8 (RFC 3629, section 3) and Rust's `str::len`
  // ---------------------------------------------------------------------

  /** Number of bytes UTF-8 spends on one scalar value. */
  function Utf8Width(c: char): (n: nat)
    ensures 1 <= n <= 4
    ensures n == 1 <==> c as int < 0x80
  {
    if c as int < 0x80 then 1
    else if c as int < 0x800 then 2
    else if c as int < 0x1_0000 then 3
    else 4
  }

  predicate IsContinuation(b: byte) {
    0x80 <= b < 0xC0
  }

  /** The UTF-8 encoding of one scalar value: the code point in 6-bit groups below a lead byte. */
  function EncodeChar(c: char): (bs: seq<byte>)
    ensures |bs| == Utf8Width(c)
    ensures |bs| == 1 ==> bs[0] as int == c as int
    ensures |bs| > 1 ==> 0xC0 <= bs[0] && forall k :: 1 <= k < |bs| ==> IsContinuation(bs[k])
  {
    var cp := c as int;
    var q1, r1 := cp / 0x40, cp % 0x40;
    var q2, r2 := q1 / 0x40, q1 % 0x40;
    var q3, r3 := q2 / 0x40, q2 % 0x40;
    if cp < 0x80 then
      [cp as byte]
    else if cp < 0x800 then
      [(0xC0 + q1) as byte, (0x80 + r1) as byte]
    else if cp < 0x1_0000 then
      [(0xE0 + q2) as byte, (0x80 + r2) as byte, (0x80 + r1) as byte]
    else
      [(0xF0 + q3) as byte, (0x80 + r3) as byte, (0x80 + r2) as byte, (0x80 + r1) as byte]
  }

  /** The scalar value that a well-formed 1- to 4-byte UTF-8 sequence denotes. */
  function DecodeScalar(bs: seq<byte>): int
    requires 1 <= |bs| <= 4
  {
    if |bs| == 1 then bs[0] as int
    else if |bs| == 2 then (bs[0] as int - 0xC0) * 0x40 + (bs[1] as int - 0x80)
    else if |bs| == 3 then
      ((bs[0] as int - 0xE0) * 0x40 + (bs[1] as int - 0x80)) * 0x40 + (bs[2] as int - 0x80)
    else
      (((bs[0] as int - 0xF0) * 0x40 + (bs[1] as int - 0x80)) * 0x40
       + (bs[2] as int - 0x80)) * 0x40 + (bs[3] as int - 0x80)
  }

  /** The encoder loses nothing: decoding its output gives back the scalar value. */
  lemma EncodeCharRoundTrip(c: char)
    ensures DecodeScalar(EncodeChar(c)) == c as int
  {
  }

  /** The UTF-8 byte buffer that backs a Rust `String`. */
  function Utf8Encode(s: string): (bs: seq<byte>)
    ensures |s| <= |bs| <= 4 * |s|
    ensures |bs| == |s| <==> forall i :: 0 <= i < |s| ==> s[i] as int < 0x80
  {
    if s == [] then [] else EncodeChar(s[0]) + Utf8Encode(s[1..])
  }

  /**
   * Rust's `str::len`: the number of bytes, not of characters. Only the empty
   * string has none, and only ASCII text has one byte per character.
   */
  function ByteLength(s: string): (n: nat)
    ensures |s| <= n <= 4 * |s|
    ensures n == 0 <==> s == []
    ensures n == |s| <==> forall i :: 0 <= i < |s| ==> s[i] as int < 0x80
  {
    |Utf8Encode(s)|
  }

  /** Encoding distributes over concatenation, so byte lengths add up. */
  lemma {:induction false} Utf8EncodeAppend(a: string, b: string)
    ensures Utf8Encode(a + b) == Utf8Encode(a) + Utf8Encode(b)
    ensures ByteLength(a + b) == ByteLength(a) + ByteLength(b)
    decreases |a|
  {
    if a == [] {
      assert a + b == b;
    } else {
      assert (a + b)[1..] == a[1..] + b;
      Utf8EncodeAppend(a[1..], b);
    }
  }

  // ---------------------------------------------------------------------
  // Rust's `str::trim`
  // ---------------------------------------------------------------------

  /** Rust's `char::is_whitespace`: the Unicode White_Space property. */
  predicate IsWhitespace(c: char) {
    var cp := c as int;
    || (0x09 <= cp <= 0x0D)
    || cp == 0x20
    || cp == 0x85
    || cp == 0xA0
    || cp == 0x1680
    || (0x2000 <= cp <= 0x200A)
    || cp == 0x2028
    || cp == 0x2029
    || cp == 0x202F
    || cp == 0x205F
    || cp == 0x3000
  }

  ghost predicate AllWhitespace(s: string) {
    forall k :: 0 <= k < |s| ==> IsWhitespace(s[k])
  }

  /** Rust's `str::trim_start`: drops the leading whitespace and nothing else. */
  function TrimStart(s: string): (r: string)
    ensures |r| <= |s| && r == s[|s| - |r|..]
    ensures forall k :: 0 <= k < |s| - |r| ==> IsWhitespace(s[k])
    ensures r == [] || !IsWhitespace(r[0])
  {
    if s == [] || !IsWhitespace(s[0]) then s else TrimStart(s[1..])
  }

  /** Rust's `str::trim_end`: drops the trailing whitespace and nothing else. */
  function TrimEnd(s: string): (r: string)
    ensures |r| <= |s| && r == s[..|r|]
    ensures forall k :: |r| <= k < |s| ==> IsWhitespace(s[k])
    ensures r == [] || !IsWhitespace(r[|r| - 1])
  {
    if s == [] || !IsWhitespace(s[|s| - 1]) then s else TrimEnd(s[..|s| - 1])
  }

  /** How many characters `trim_start` drops. */
  function LeadingWhitespace(s: string): (n: nat)
    ensures n <= |s|
  {
    |s| - |TrimStart(s)|
  }

  /** Rust's `str::trim`: `s` without its leading and trailing whitespace. */
  function Trim(s: string): (r: string)
    ensures |r| <= |s|
    ensures r == [] <==> AllWhitespace(s)
    ensures r != [] ==> !IsWhitespace(r[0]) && !IsWhitespace(r[|r| - 1])
  {
    var t := TrimStart(s);
    var r := TrimEnd(t);
    TrimSlice(s, t, r);
    r
  }

  /**
   * The trimmed text is the slice of `s` that follows its leading whitespace
   * and precedes its trailing whitespace: nothing inside it changes.
   */
  lemma TrimIsSlice(s: string)
    ensures var r := Trim(s);
            var i := LeadingWhitespace(s);
            && i + |r| <= |s| && r == s[i..i + |r|]
            && AllWhitespace(s[..i]) && AllWhitespace(s[i + |r|..])
  {
    var t := TrimStart(s);
    var r := TrimEnd(t);
    assert Trim(s) == r && LeadingWhitespace(s) == |s| - |t|;
    TrimSlice(s, t, r);
  }

  /** The trimmed text is the slice of `s` between its leading and its trailing whitespace. */
  lemma TrimSlice(s: string, t: string, r: string)
    requires |t| <= |s| && t == s[|s| - |t|..] && forall k :: 0 <= k < |s| - |t| ==> IsWhitespace(s[k])
    requires t == [] || !IsWhitespace(t[0])
    requires |r| <= |t| && r == t[..|r|] && forall k :: |r| <= k < |t| ==> IsWhitespace(t[k])
    requires r == [] || !IsWhitespace(r[|r| - 1])
    ensures r == s[|s| - |t|..|s| - |t| + |r|]
    ensures AllWhitespace(s[..|s| - |t|]) && AllWhitespace(s[|s| - |t| + |r|..])
    ensures r == [] <==> AllWhitespace(s)
    ensures r != [] ==> !IsWhitespace(r[0])
  {
    var i := |s| - |t|;
    assert t == s[i..];
    assert r == s[i..][..|r|];
    assert s[i..][..|r|] == s[i..i + |r|];
    assert s[i + |r|..] == t[|r|..];
    forall k | 0 <= k < i
      ensures IsWhitespace(s[..i][k])
    {
      assert s[..i][k] == s[k];
    }
    forall k | 0 <= k < |t| - |r|
      ensures IsWhitespace(t[|r|..][k])
    {
      assert t[|r|..][k] == t[|r| + k];
    }
    if r == [] {
      assert t == [];
    } else {
      assert r[0] == t[0];
      assert s[i] == t[0];
    }
  }

  /**
   * Trimming leaves a text that already starts and ends with non-whitespace
   * unchanged, also when a final newline follows it.
   */
  lemma TrimSurrounded(s: string)
    requires s != [] && !IsWhitespace(s[0]) && !IsWhitespace(s[|s| - 1])
    ensures Trim(s) == s
    ensures Trim(s + "\n") == s
  {
    var t := s + "\n";
    assert t[0] == s[0];
    assert TrimStart(t) == t;
    assert t[..|t| - 1] == s;
    assert TrimEnd(t) == TrimEnd(s);
  }

  // ---------------------------------------------------------------------
  // Rust's `join`, `split` and `replace`
  // ---------------------------------------------------------------------

  /** Rust's `[String]::join(sep)`. */
  function Join(parts: seq<string>, sep: string): string {
    if |parts| == 0 then ""
    else if |parts| == 1 then parts[0]
    else parts[0] + sep + Join(parts[1..], sep)
  }

  /** Rust's `str::split(c)`: the pieces between occurrences of `c`, always at least one. */
  function Split(s: string, c: char): (pieces: seq<string>)
    ensures |pieces| >= 1
    ensures forall i, k :: 0 <= i < |pieces| && 0 <= k < |pieces[i]| ==> pieces[i][k] != c
  {
    if s == [] then [""]
    else
      var rest := Split(s[1..], c);
      if s[0] == c then [""] + rest
      else [[s[0]] + rest[0]] + rest[1..]
  }

  /** Number of occurrences of `c` in `s`. */
  function Count(s: string, c: char): nat {
    if s == [] then 0 else (if s[0] == c then 1 else 0) + Count(s[1..], c)
  }

  /** `s.replace(c, rep)` for a one-character pattern. */
  function ReplaceChar(s: string, c: char, rep: string): (r: string)
    ensures c !in rep ==> c !in r
    ensures c !in s ==> r == s
    ensures |r| == |s| + Count(s, c) * (|rep| - 1)
  {
    if s == [] then ""
    else if s[0] == c then rep + ReplaceChar(s[1..], c, rep)
    else [s[0]] + ReplaceChar(s[1..], c, rep)
  }

  /** Rust's `replace` agrees with split-then-join, and so does the character-wise model. */
  lemma {:induction false} ReplaceIsSplitJoin(s: string, c: char, rep: string)
    ensures ReplaceChar(s, c, rep) == Join(Split(s, c), rep)
    decreases |s|
  {
    if s != [] {
      var rest := Split(s[1..], c);
      ReplaceIsSplitJoin(s[1..], c, rep);
      if s[0] == c {
        JoinAfterEmpty(rest, rep);
      } else {
        JoinExtendHead([s[0]], rest, rep);
      }
    }
  }

  lemma JoinAfterEmpty(rest: seq<string>, sep: string)
    requires |rest| >= 1
    ensures Join([""] + rest, sep) == sep + Join(rest, sep)
  {
    assert ([""] + rest)[1..] == rest;
  }

  lemma JoinExtendHead(head: string, rest: seq<string>, sep: string)
    requires |rest| >= 1
    ensures Join([head + rest[0]] + rest[1..], sep) == head + Join(rest, sep)
  {
    var parts := [head + rest[0]] + rest[1..];
    if |rest| == 1 {
      assert parts == [head + rest[0]];
    } else {
      assert parts[1..] == rest[1..];
    }
  }

  /** Rejoining the pieces with the separator gives back the original text. */
  lemma {:induction false} SplitJoinRoundTrip(s: string, c: char)
    ensures Join(Split(s, c), [c]) == s
    decreases |s|
  {
    ReplaceIsSplitJoin(s, c, [c]);
    ReplaceSelf(s, c);
  }

  lemma {:induction false} ReplaceSelf(s: string, c: char)
    ensures ReplaceChar(s, c, [c]) == s
    decreases |s|
  {
    if s != [] {
      ReplaceSelf(s[1..], c);
      assert s == [s[0]] + s[1..];
    }
  }

  // ---------------------------------------------------------------------
  // Rust's `{}` on unsigned integers
  // ---------------------------------------------------------------------

  predicate IsDigit(c: char) {
    '0' <= c <= '9'
  }

  function DigitChar(d: nat): (c: char)
    requires d < 10
    ensures IsDigit(c) && c as int - '0' as int == d
  {
    ('0' as int + d) as char
  }

  /** Decimal notation without sign or leading zeros. */
  function Decimal(n: nat): (s: string)
    ensures s != []
    ensures forall k :: 0 <= k < |s| ==> IsDigit(s[k])
    ensures |s| > 1 ==> s[0] != '0'
  {
    if n < 10 then [DigitChar(n)] else Decimal(n / 10) + [DigitChar(n % 10)]
  }

  function DigitValue(c: char): (d: nat)
    requires IsDigit(c)
    ensures d < 10
  {
    c as int - '0' as int
  }

  /** The value a string of decimal digits denotes. */
  function ParseDecimal(s: string): nat
    requires forall k :: 0 <= k < |s| ==> IsDigit(s[k])
  {
    if s == [] then 0
    else 10 * ParseDecimal(s[..|s| - 1]) + DigitValue(s[|s| - 1])
  }

  /** The decimal rendering of a count reads back as that count. */
  lemma {:induction false} DecimalRoundTrip(n: nat)
    ensures ParseDecimal(Decimal(n)) == n
    decreases n
  {
    if n >= 10 {
      DecimalRoundTrip(n / 10);
      var s := Decimal(n);
      assert s[..|s| - 1] == Decimal(n / 10);
    }
  }
}

=== FILE: wrappers.dfy ===
/** Small failure-carrying datatypes shared by the whole model. */
module Wrappers {

  /** An optional value; Rust's `Option`. */
  datatype Option<+T> = None | Some(value: T)

  /** A verdict that carries an error on failure; Rust's `Result<(), E>`. */
  datatype Outcome<+E> = Pass | Fail(error: E)
}
